=== FILE: README.md ===
# MINIX FCFS scheduling-policy server, modelled in Dafny

This project models the user-space scheduler (`sched`) of a MINIX 3 fork
whose policy has been replaced by first-come-first-served. The server keeps
one unsigned load count per CPU (`cpu_proc`) and a table of per-process
scheduling records (`schedproc`: endpoint, parent, flags, max_priority,
priority, time_slice, cpu). It reacts to four messages:

- admission (`do_start_scheduling`), with its EBADCPU retry loop;
- removal (`do_stop_scheduling`);
- quantum expiry (`do_noquantum`);
- nice (`do_nice`).

Two helpers serve all four handlers. `pick_cpu` chooses a CPU and charges it.
`schedule_process` builds the `sys_schedule` call: -1 marks a field it leaves
alone, and the call also carries the `niced` flag. The record's unsigned
fields travel in `int` arguments, so a value above INT_MAX arrives negative.

The model is a state machine over immutable values:

- `Sched.State` holds the load counts as a `seq` of unsigned 32-bit values
  and the record table as a `map` from slot to record. A slot that was never
  written reads as the all-zero record, as static storage does.
- Each handler is a pure function. It returns the new state, the status and
  the kernel calls it made.
- `Schedule.Step` and `Schedule.Run` chain handlers into runs of messages.
- Everything decided by code outside the model is an explicit input of the
  handler: message acceptance, endpoint-to-slot lookups, and the answers of
  `sys_schedctl` and `sys_schedule`.

Files:

- `unsigned.dfy`: C's unsigned arithmetic. `x++` and `x--` wrap modulo 2^32, `(unsigned) -1` is UINT_MAX, and an unsigned value copied into a 32-bit `int` reads values above INT_MAX as negative.
- `sched.dfy`: the constants, `USER_Q = 12` and `MIN_USER_Q = 14` among them; the machine parameters (`processors_count`, `bsp_id`, `NR_SCHED_QUEUES`, `RS_PROC_NR`, CONFIG_SMP); records, state and calls.
- `cpuload.dfy`: `pick_cpu` and a reference description of the CPU it must choose.
- `schedule.dfy`: `schedule_process`, the retry loop, the four handlers and the state machine.
- `properties.dfy`: lemmas relating handlers to each other and to the load counts.

Behaviour of the code that the model makes explicit (the code is followed
throughout):

- **Dead CPUs are not really dead.** `cpu_proc` is unsigned, so `cpu_is_available` (`cpu_proc[c] >= 0`) never fails. A non-boot CPU marked `CPU_DEAD` reads UINT_MAX. The strict comparison against the initial `cpu_load` of UINT_MAX is the only thing that keeps the scan from choosing it. Two paths bring a dead CPU back:
  - Removing a process bound to it decrements the count to UINT_MAX - 1, after which the CPU can be chosen again (`StopRevivesDeadCpu`).
  - A dead boot CPU chosen as the fallback wraps from UINT_MAX to 0 (`DeadBspRevivedByFallback`).
- **Under SMP, admission of a user process on a machine with several CPUs charges twice.** `pick_cpu` runs at line 116 and again inside `schedule_process`, and each run charges the CPU it chooses. Removal releases one unit only, so a removed process leaves one unit behind (`AdmitThenStopLeavesOneUnit`). After a refusal, the re-pick at line 119 and the pick inside the next `schedule_process` charge again (`RetryRefusalStep`). For such a process every quantum expiry also charges one more unit and never releases one. The other cases differ:
  - Under SMP, a system process, or any process on a one-CPU machine, is placed on the boot CPU without a charge. Removal still releases one unit there, so the boot CPU ends one unit lower, wrapping from 0 to UINT_MAX (`AdmitThenStopBypassDrainsBsp`).
  - Without SMP no count is charged or released (`AdmitThenStopUniprocessorKeepsCounts`).
- **A quantum of -1 means "keep".** `schedule_process` copies the unsigned fields into `int` arguments (line 134), and -1 is also the "no change" marker. A start message with quantum -1 stores UINT_MAX, which reaches `sys_schedule` as -1, so the kernel keeps its own quantum even though the mask names it (`MaxFieldReadAsKeep`, `StartWithQuantumMinusOneKeepsKernelQuantum`).
- **An inherited process sits below its ceiling.** It gets priority `USER_Q` even when its clamped `max_priority` is smaller. What holds is `max_priority <= priority <= USER_Q`, not `priority <= max_priority`.
- **EINVAL is reported after the record is written.** The endpoint, parent and max_priority fields are already written into the record when EINVAL is returned.
- **`do_noquantum` does not retry.** It passes an EBADCPU answer straight back to its caller.
- **`do_noquantum` replaces the lookup's error.** It reports any lookup failure as EBADEPT. Admission, by contrast, returns the lookup's own error.

## Model

| member | source | states |
|---|---|---|
| `Unsigned.ToUnsigned` | minix/servers/sched/schedule.c:16 | Conversion to `unsigned` keeps in-range values and adds 2^32 to negative values down to -2^32, so the result always differs from the input by a multiple of 2^32. |
| `Unsigned.MinusOneIsMax` | minix/servers/sched/schedule.c:16 | `CPU_DEAD`, that is -1 stored in an unsigned load count, reads as UINT_MAX. |
| `Unsigned.ToInt32` | minix/servers/sched/schedule.c:134-140 | Assigning an unsigned field to an `int` keeps values up to INT_MAX and subtracts 2^32 from larger ones, so the result is the 32-bit two's-complement reading of the field. |
| `Unsigned.ToInt32RoundTrip` | minix/servers/sched/schedule.c:134-140 | Converting the `int` argument back to `unsigned` recovers the field, so the conversion loses no bits. |
| `Unsigned.MaxReadsAsMinusOne` | minix/servers/sched/schedule.c:134-140 | UINT_MAX copied into an `int` argument reads as -1. |
| `Unsigned.Inc` | minix/servers/sched/schedule.c:33 | `cpu_proc[cpu]++` adds one below UINT_MAX and wraps UINT_MAX to 0. |
| `Unsigned.Dec` | minix/servers/sched/schedule.c:61 | `cpu_proc[cpu]--` subtracts one above 0 and wraps 0 to UINT_MAX. |
| `Unsigned.IncDecInverse` | minix/servers/sched/schedule.c:20 | On the unsigned counts, increment and decrement undo each other in both orders, wrap-around included. |
| `Sched.Init` | minix/servers/sched/schedule.c:20 | The start state meets the state invariant, every load count is zero and every slot holds the zeroed record. |
| `CpuLoad.CpuAlwaysAvailable` | minix/servers/sched/schedule.c:17 | `cpu_is_available` holds of every unsigned count, CPU_DEAD included. |
| `CpuLoad.ScanFindsLeastLoaded` | minix/servers/sched/schedule.c:27-31 | From any point where the loop's variables meet the scan invariant, the loop ends on the CPU the reference description names. |
| `CpuLoad.LeastLoadedUnique` | minix/servers/sched/schedule.c:27-31 | At most one CPU meets the reference description: the non-boot CPU with the strictly smallest count below UINT_MAX, ties going to the lowest index, or else the boot CPU. |
| `CpuLoad.ChooseCpu` | minix/servers/sched/schedule.c:24-31 | The scan, started with `cpu = bsp_id` and `cpu_load = UINT_MAX`, ends on an existing CPU that meets the reference description. |
| `CpuLoad.ChooseCpuIff` | minix/servers/sched/schedule.c:24-31 | The scan returns a CPU if and only if that CPU meets the reference description. |
| `CpuLoad.PickCpu` | minix/servers/sched/schedule.c:21-37 | Only the record's cpu field changes. Without SMP it becomes 0. With one CPU or a parent equal to RS_PROC_NR it becomes `bsp_id` and no count moves. Otherwise it becomes the least-loaded CPU of the description, and exactly that CPU's count is incremented. |
| `CpuLoad.DeadCpuNotPicked` | minix/servers/sched/schedule.c:24-33 | A non-boot CPU holding CPU_DEAD is never chosen under SMP, and its count still reads CPU_DEAD after the pick. |
| `CpuLoad.PickCpuTouchesOnlyChosen` | minix/servers/sched/schedule.c:32-33 | Every CPU other than the chosen one keeps its count. |
| `Schedule.ScheduleProcess` | minix/servers/sched/schedule.c:133-147 | The CPU is re-picked first. The call goes to the record's endpoint with `niced` true exactly when max_priority exceeds USER_Q. The dispatcher's answer is returned unchanged. |
| `Schedule.ScheduleArgsRoundTrip` | minix/servers/sched/schedule.c:134-141 | A dispatcher that reads -1 as "keep" keeps its own value for each bit that is clear. For each bit that is set, it ends up with the record's priority or quantum when that value is at most INT_MAX, and always with the re-picked CPU, which is below `processors_count`. |
| `Schedule.MaxFieldReadAsKeep` | minix/servers/sched/schedule.c:134-141 | A priority or quantum of UINT_MAX is passed as -1, so the dispatcher keeps its own value even when the mask names the field. |
| `Schedule.RetryLoop` | minix/servers/sched/schedule.c:117-120 | The loop makes one full call per EBADCPU answer plus a final one, and returns the first answer other than EBADCPU. Each call carries the record's priority and quantum as `int` arguments, an existing CPU, and the niced flag. The last call's CPU is where the record ends up, and only the cpu field changes. |
| `Schedule.DoNoQuantum` | minix/servers/sched/schedule.c:40-51 | A failed lookup gives EBADEPT with nothing changed. Otherwise the result is a single call with the priority and the quantum as `int` arguments, CPU -1 and the niced flag; the dispatcher's answer is returned as is; the record keeps every field but the re-picked cpu; the counts are those of that pick. |
| `Schedule.DoStopScheduling` | minix/servers/sched/schedule.c:54-65 | The result is OK exactly when the message is accepted and the lookup succeeds; otherwise EPERM or EBADEPT with nothing changed. On OK, flags become 0 and nothing else in the record changes. Under SMP the count of the record's cpu is decremented by one. No kernel call is made. |
| `Schedule.DoStartScheduling` | minix/servers/sched/schedule.c:68-124 | The state invariant is kept. A refused message gives EPERM, and a refused slot lookup gives that lookup's error; in both cases nothing changes. |
| `Schedule.DoNice` | minix/servers/sched/schedule.c:127-130 | A nice request returns OK and changes no state. No kernel call is made. |
| `Schedule.Step` | minix/servers/sched/schedule.c:58-61 | Every handler keeps the state invariant: one count per processor, and every record names an existing CPU. So the load count that removal and the dead-marking index by the record's cpu always exists. |
| `Schedule.Run` | minix/servers/sched/schedule.c:58-61 | Any run of messages keeps the state invariant. |
| `SchedProperties.RetryFirstTry` | minix/servers/sched/schedule.c:117 | Under SMP, a user process's first try in the loop goes to the CPU that the scan chooses over the loop's starting counts. If that try is not refused, the process stays there and that count has gone up by one. |
| `SchedProperties.RetryRefusalStep` | minix/servers/sched/schedule.c:117-119 | Under SMP, after one refusal of a user process, the refused CPU's count is overwritten with CPU_DEAD. Line 119 then charges the CPU the scan chooses over those counts. The second try goes to the CPU the scan chooses after that charge. If the second try is not refused, the record ends there and that CPU has been charged once more, so a CPU chosen by both picks carries two units over its count after the dead-marking. |
| `SchedProperties.RetryKeepsDeadCpusDead` | minix/servers/sched/schedule.c:117-120 | A non-boot CPU that reads CPU_DEAD when the loop starts still reads CPU_DEAD when it ends. Under SMP the process is not placed there. |
| `SchedProperties.RetryMarksRefusedCpusDead` | minix/servers/sched/schedule.c:117-119 | Every non-boot CPU the dispatcher refused during the loop reads CPU_DEAD at the end. Under SMP the process is not placed on it. |
| `SchedProperties.SystemProcessRetriesOnBsp` | minix/servers/sched/schedule.c:19-26 | Under SMP, a system process (or any process on a one-CPU machine) is offered to the boot CPU on every try, including after the boot CPU was marked dead. The counts of the other CPUs never change. After any refusal the boot CPU's count reads CPU_DEAD, since line 118 marks it and the bypass never charges it back; without a refusal it is unchanged. |
| `SchedProperties.DeadBspRevivedByFallback` | minix/servers/sched/schedule.c:27-33 | When every CPU reads CPU_DEAD, a user process falls back to the boot CPU and its count wraps to 0. |
| `SchedProperties.AdmitOkIff` | minix/servers/sched/schedule.c:72-121 | Admission returns OK if and only if all of these hold: the message is accepted; the slot lookup succeeds; max_priority is below NR_SCHED_QUEUES; for an inherit, the parent lookup succeeds; `sys_schedctl` succeeds; and the dispatcher's first answer other than EBADCPU is OK. |
| `SchedProperties.AdmitRejectsInvalidPriority` | minix/servers/sched/schedule.c:75-78 | A max_priority at or above NR_SCHED_QUEUES gives EINVAL with no kernel call and no count moved. The flags are not set. In that slot only endpoint, parent and max_priority are written, and no other slot changes. |
| `SchedProperties.AdmitSuccessRecord` | minix/servers/sched/schedule.c:75-115 | After a successful admission, the record is IN_USE and holds the message's endpoint and parent. max_priority is clamped to at most USER_Q and is below NR_SCHED_QUEUES. A start gives priority = max_priority and time_slice = the requested quantum; an inherit gives USER_Q and 5000, overriding the self-parent defaults. `max_priority <= priority <= USER_Q < MIN_USER_Q` holds, and other slots are unchanged. |
| `SchedProperties.AdmitNeverNiced` | minix/servers/sched/schedule.c:81-83 | Because of the clamp, every `sys_schedule` call made during admission passes `niced = false` (the flag is computed at line 142). |
| `SchedProperties.StartWithQuantumMinusOneKeepsKernelQuantum` | minix/servers/sched/schedule.c:95-97 | A start message with quantum -1 stores UINT_MAX when admitted, and every `sys_schedule` call of that admission passes quantum -1, meaning "keep". |
| `SchedProperties.AdmitErrorsPassThrough` | minix/servers/sched/schedule.c:100-121 | Once the message, slot and priority checks pass, a failed parent lookup of an inherit is returned as it came, with no kernel call. Otherwise `sys_schedctl` of the message's endpoint is the first kernel call. Its failure is returned as it came, with no further call; after its success, the dispatcher's first answer other than EBADCPU is returned. No other slot changes on any of these paths. |
| `SchedProperties.AdmitTailMarksRefusedCpusDead` | minix/servers/sched/schedule.c:113-121 | Once `sys_schedctl` succeeds, the admission makes one dispatch per refusal plus a final one, each on an existing CPU. The record is IN_USE whatever the dispatcher answers. It sits on the CPU of the last dispatch, and every non-boot CPU refused on the way reads CPU_DEAD in the server's counts. |
| `SchedProperties.AdmitLeavesState` | minix/servers/sched/schedule.c:100-121 | Once the message, slot and priority checks pass, a failed parent lookup or `sys_schedctl` leaves every count and the record's flags as they were. Otherwise the record ends IN_USE even when the dispatcher fails; it sits on the last dispatch's CPU, and every refused non-boot CPU reads CPU_DEAD. |
| `SchedProperties.AdmitFirstTryAccepted` | minix/servers/sched/schedule.c:113-121 | When `sys_schedctl` and the first dispatch accept, admission returns OK, and the record and counts are what the pick at line 116 followed by the pick inside `schedule_process` produce. |
| `SchedProperties.AdmitThenStopLeavesOneUnit` | minix/servers/sched/schedule.c:116-117 | Take an SMP, multi-CPU machine, a user process and a first dispatch that is accepted. Admitting and then removing the process leaves the counts equal to the original counts with one unit added to the CPU that the first pick chose. The second pick, at line 135, is the one undone by line 61. |
| `SchedProperties.AdmitThenStopBypassDrainsBsp` | minix/servers/sched/schedule.c:21-26 | Under SMP, a system process (or any process on a one-CPU machine) whose first dispatch is accepted is admitted and then removed. The boot CPU's count ends one lower than it started, wrapping at 0, and no other count changes. |
| `SchedProperties.AdmitThenStopUniprocessorKeepsCounts` | minix/servers/sched/schedule.c:59-61 | Without SMP, a process whose first dispatch is accepted is admitted and then removed, and every count is left as it was. |
| `SchedProperties.StopRevivesDeadCpu` | minix/servers/sched/schedule.c:61 | Removing a process bound to a dead non-boot CPU leaves that count at UINT_MAX - 1. If every non-boot CPU was dead, the next user process is placed on that CPU. |
| `SchedProperties.RunWithoutAdmissionKeepsParams` | minix/servers/sched/schedule.c:47-50 | Quantum expiry, removal and nice never change a record's endpoint, parent, max_priority, priority or time_slice, however often they repeat. |
| `SchedProperties.NiceIsInvisible` | minix/servers/sched/schedule.c:127-130 | Removing every nice request from a run of messages does not change the state the run ends in. |

## Left out

- Kernel calls are not modelled as code. Each `sys_schedctl` and `sys_schedule` answer is an input: OK, EBADCPU or another error. The calls issued are recorded in each handler's result.
- `processors_count` is declared outside the scheduler. The model takes it to be at most INT_MAX, so that every CPU index fits in the `int` argument of `sys_schedule`.
- Schedule.RetryLoop: requires the dispatcher's answers to include one that is not EBADCPU. The source's loop does not end if the dispatcher answers EBADCPU forever (a dead boot CPU can be picked again and again), so termination holds only under that assumption.
- Schedule.DoStartScheduling: carries the same requirement on the dispatcher's answers, for the same reason.
- Endpoint and permission helpers: `accept_message`, `sched_isokendpt` and `sched_isemtyendpt` are not part of this model. Their answers are inputs. So the model does not say that a second removal of the same process is refused; that refusal belongs to `sched_isokendpt`.
- `schedproc.h` is not part of this model. Three things are assumed from MINIX: max_priority, priority, time_slice and cpu are unsigned; the in-use bit `IN_USE` is 1; and the table starts zeroed.
- The message fields `maxprio` and `quantum` are signed. They are converted to unsigned when stored.
- `CONFIG_MAX_CPUS`: only the first `processors_count` entries of `cpu_proc` are modelled. No code path touches the entries beyond them.
- Timer plumbing: `init_scheduling` and `balance_queues` only arm the balance timer and print, so they are not modelled.
- `printf` and `panic` are output and abort only.
- The reply field set at line 122 (`scheduler = SCHED_PROC_NR`) belongs to message plumbing.
- The `default: assert(0)` branch of the start switch: the message kind has exactly two cases, so that branch cannot be reached.
- The test programs `testes_escalonamentos/teste_processos.c` and `testes_escalonamentos/setfcfs.c` are fork, system-call and timing harnesses with no scheduling logic.
- The burst-estimation constants (`sched.h` lines 6-9) are used by nothing in the scheduler code.
- Other policies: no round-robin, feedback or burst-estimation policy exists in this code, so none is modelled.

=== FILE: cpuload.dfy ===
/**
 CPU selection (pick_cpu): the single-CPU and system-process bypass, the scan
 for the least-loaded non-boot CPU over unsigned load counts, and the
 increment of the chosen CPU's count.
 */
module CpuLoad {
  import opened Unsigned
  import opened Sched

  /**
   The availability test of the scan. Load counts are unsigned, so a count
   holding CPU_DEAD still compares `>= 0` and the test never fails.
   */
  predicate CpuIsAvailable(load: U32) {
    load >= 0
  }

  lemma CpuAlwaysAvailable(load: U32)
    ensures CpuIsAvailable(load)
  {
  }

  /**
   The CPU the scan should settle on: a non-boot CPU whose count is below
   UINT_MAX, strictly below every earlier non-boot CPU's count and no greater
   than any later one's; or the boot CPU when every non-boot CPU reads
   UINT_MAX (which is how a CPU marked dead reads).
   */
  ghost predicate LeastLoaded(loads: seq<U32>, bsp: nat, x: nat) {
    && x < |loads|
    && if x == bsp then
         forall i :: 0 <= i < |loads| && i != bsp ==> loads[i] == UINT_MAX
       else
         && loads[x] < UINT_MAX
         && (forall i :: 0 <= i < x && i != bsp ==> loads[x] < loads[i])
         && (forall i :: x < i < |loads| && i != bsp ==> loads[x] <= loads[i])
  }

  /**
   The scan loop from CPU `c` on, with `cpu` the candidate so far and
   `cpuLoad` its count (initially the boot CPU and UINT_MAX). An unavailable
   CPU is skipped, like one that does not beat the candidate.
   */
  function Scan(loads: seq<U32>, bsp: nat, c: nat, cpu: nat, cpuLoad: U32): nat
    requires c <= |loads|
    decreases |loads| - c
  {
    if c == |loads| then cpu
    else if CpuIsAvailable(loads[c]) && c != bsp && cpuLoad > loads[c] then
      Scan(loads, bsp, c + 1, c, loads[c])
    else Scan(loads, bsp, c + 1, cpu, cpuLoad)
  }

  /** What holds of the scan's variables after CPUs `0 .. c-1` were looked at. */
  ghost predicate ScanInv(loads: seq<U32>, bsp: nat, c: nat, cpu: nat, cpuLoad: U32) {
    && c <= |loads|
    && bsp < |loads|
    && if cpu == bsp then
         && cpuLoad == UINT_MAX
         && forall i :: 0 <= i < c && i != bsp ==> loads[i] == UINT_MAX
       else
         && cpu < c
         && cpuLoad == loads[cpu]
         && cpuLoad < UINT_MAX
         && (forall i :: 0 <= i < cpu && i != bsp ==> cpuLoad < loads[i])
         && (forall i :: cpu < i < c && i != bsp ==> cpuLoad <= loads[i])
  }

  lemma {:induction false} ScanFindsLeastLoaded(loads: seq<U32>, bsp: nat, c: nat, cpu: nat, cpuLoad: U32)
    requires ScanInv(loads, bsp, c, cpu, cpuLoad)
    ensures LeastLoaded(loads, bsp, Scan(loads, bsp, c, cpu, cpuLoad))
    decreases |loads| - c
  {
    if c < |loads| {
      if c != bsp && cpuLoad > loads[c] {
        ScanFindsLeastLoaded(loads, bsp, c + 1, c, loads[c]);
      } else {
        ScanFindsLeastLoaded(loads, bsp, c + 1, cpu, cpuLoad);
      }
    }
  }

  /** Only one CPU meets the description. */
  lemma LeastLoadedUnique(loads: seq<U32>, bsp: nat, x: nat, y: nat)
    requires LeastLoaded(loads, bsp, x) && LeastLoaded(loads, bsp, y)
    ensures x == y
  {
  }

  /** The whole scan, started as pick_cpu starts it. */
  function ChooseCpu(loads: seq<U32>, bsp: nat): (x: nat)
    requires bsp < |loads|
    ensures x < |loads|
    ensures LeastLoaded(loads, bsp, x)
  {
    ScanFindsLeastLoaded(loads, bsp, 0, bsp, UINT_MAX);
    Scan(loads, bsp, 0, bsp, UINT_MAX)
  }

  /** The scan picks a CPU exactly when that CPU meets the description. */
  lemma ChooseCpuIff(loads: seq<U32>, bsp: nat, x: nat)
    requires bsp < |loads|
    ensures x == ChooseCpu(loads, bsp) <==> LeastLoaded(loads, bsp, x)
  {
  }

  /** The record and load counts after pick_cpu. */
  datatype Placement = Placement(cpuProc: seq<U32>, proc: SchedProc)

  /** pick_cpu skips the scan on a single-CPU machine and for system processes. */
  predicate BypassesScan(m: Machine, p: SchedProc) {
    m.processorsCount == 1 || p.parent == m.rsProcNr
  }

  function PickCpu(m: Machine, cpuProc: seq<U32>, p: SchedProc): (r: Placement)
    requires m.Valid() && |cpuProc| == m.processorsCount
    ensures |r.cpuProc| == |cpuProc|
    ensures r.proc.cpu < m.processorsCount
    ensures r.proc == p.(cpu := r.proc.cpu)
    ensures !m.smp ==> r.proc.cpu == 0 && r.cpuProc == cpuProc
    ensures m.smp && BypassesScan(m, p) ==> r.proc.cpu == m.bspId && r.cpuProc == cpuProc
    ensures m.smp && !BypassesScan(m, p) ==>
      && LeastLoaded(cpuProc, m.bspId, r.proc.cpu)
      && r.cpuProc == cpuProc[r.proc.cpu := Inc(cpuProc[r.proc.cpu])]
  {
    if !m.smp then Placement(cpuProc, p.(cpu := 0))
    else if m.processorsCount == 1 then Placement(cpuProc, p.(cpu := m.bspId))
    else if p.parent == m.rsProcNr then Placement(cpuProc, p.(cpu := m.bspId))
    else
      var c := ChooseCpu(cpuProc, m.bspId);
      Placement(cpuProc[c := Inc(cpuProc[c])], p.(cpu := c))
  }

  /**
   A non-boot CPU whose count reads CPU_DEAD is never chosen, and its count
   still reads CPU_DEAD afterwards.
   */
  lemma DeadCpuNotPicked(m: Machine, cpuProc: seq<U32>, p: SchedProc, c: nat)
    requires m.Valid() && |cpuProc| == m.processorsCount
    requires c < |cpuProc| && c != m.bspId && cpuProc[c] == CPU_DEAD
    ensures m.smp ==> PickCpu(m, cpuProc, p).proc.cpu != c
    ensures PickCpu(m, cpuProc, p).cpuProc[c] == CPU_DEAD
  {
  }

  /** Picking leaves every count but the chosen CPU's as it was. */
  lemma PickCpuTouchesOnlyChosen(m: Machine, cpuProc: seq<U32>, p: SchedProc, c: nat)
    requires m.Valid() && |cpuProc| == m.processorsCount
    requires c < |cpuProc| && c != PickCpu(m, cpuProc, p).proc.cpu
    ensures PickCpu(m, cpuProc, p).cpuProc[c] == cpuProc[c]
  {
  }
}

=== FILE: properties.dfy ===
/**
 Properties relating the handlers to each other and to the CPU load counts:
 what admission guarantees, what the retry loop does with refused CPUs,
 how removal interacts with admission and with CPUs marked dead, and what a
 run of messages without admissions leaves alone.
 */
module SchedProperties {
  import opened Unsigned
  import opened Sched
  import opened CpuLoad
  import opened Schedule

  // ---------------------------------------------------------------------
  // The retry loop and dead CPUs
  // ---------------------------------------------------------------------

  /** A non-boot CPU already marked dead stays marked dead through the loop, and SMP never places the process there. */
  lemma {:induction false} RetryKeepsDeadCpusDead(m: Machine, cpuProc: seq<U32>, p: SchedProc, replies: seq<Status>, c: nat)
    requires m.Valid() && |cpuProc| == m.processorsCount
    requires EventuallyAccepts(replies)
    requires c < |cpuProc| && c != m.bspId && cpuProc[c] == CPU_DEAD
    ensures var r := RetryLoop(m, cpuProc, p, replies);
      r.cpuProc[c] == CPU_DEAD && (m.smp ==> r.proc.cpu != c)
    decreases |replies|
  {
    var s := ScheduleProcess(m, cpuProc, p, SCHEDULE_CHANGE_ALL, replies[0]);
    DeadCpuNotPicked(m, cpuProc, p, c);
    if replies[0] == Error(EBADCPU) {
      var dead := s.cpuProc[s.proc.cpu := CPU_DEAD];
      DeadCpuNotPicked(m, dead, s.proc, c);
      var pl := PickCpu(m, dead, s.proc);
      assert EventuallyAccepts(replies[1..]) by {
        var i :| 0 <= i < |replies| && replies[i] != Error(EBADCPU);
        assert replies[1..][i - 1] == replies[i];
      }
      RetryKeepsDeadCpusDead(m, pl.cpuProc, pl.proc, replies[1..], c);
    }
  }

  /**
   Every non-boot CPU the dispatcher refused during the loop ends up marked
   dead, and under SMP the process does not end up on it.
   */
  lemma {:induction false} RetryMarksRefusedCpusDead(m: Machine, cpuProc: seq<U32>, p: SchedProc, replies: seq<Status>, i: nat)
    requires m.Valid() && |cpuProc| == m.processorsCount
    requires EventuallyAccepts(replies)
    requires i < Refusals(replies)
    requires RetryLoop(m, cpuProc, p, replies).calls[i].cpu != m.bspId
    ensures var r := RetryLoop(m, cpuProc, p, replies);
      r.cpuProc[r.calls[i].cpu] == CPU_DEAD && (m.smp ==> r.proc.cpu != r.calls[i].cpu)
    decreases |replies|
  {
    var r := RetryLoop(m, cpuProc, p, replies);
    assert FullCall(m, p, r.calls[i]);
    var s := ScheduleProcess(m, cpuProc, p, SCHEDULE_CHANGE_ALL, replies[0]);
    var dead := s.cpuProc[s.proc.cpu := CPU_DEAD];
    var pl := PickCpu(m, dead, s.proc);
    assert EventuallyAccepts(replies[1..]) by {
      var j :| 0 <= j < |replies| && replies[j] != Error(EBADCPU);
      assert replies[1..][j - 1] == replies[j];
    }
    var rest := RetryLoop(m, pl.cpuProc, pl.proc, replies[1..]);
    assert r.calls == [s.call] + rest.calls;
    assert r.cpuProc == rest.cpuProc && r.proc == rest.proc;
    if i == 0 {
      assert r.calls[0].cpu == s.proc.cpu;
      DeadCpuNotPicked(m, dead, s.proc, s.proc.cpu);
      RetryKeepsDeadCpusDead(m, pl.cpuProc, pl.proc, replies[1..], s.proc.cpu);
    } else {
      assert Refusals(replies) == 1 + Refusals(replies[1..]);
      assert rest.calls[i - 1] == r.calls[i];
      RetryMarksRefusedCpusDead(m, pl.cpuProc, pl.proc, replies[1..], i - 1);
    }
  }

  /**
   Under SMP, a user process's first try goes to the CPU the scan chooses
   over the counts the loop starts from; when that try is not refused, the
   process stays there and that CPU has been charged one unit.
   */
  lemma RetryFirstTry(m: Machine, cpuProc: seq<U32>, p: SchedProc, replies: seq<Status>)
    requires m.Valid() && |cpuProc| == m.processorsCount
    requires EventuallyAccepts(replies)
    requires m.smp && !BypassesScan(m, p)
    ensures var r := RetryLoop(m, cpuProc, p, replies);
      var c0 := ChooseCpu(cpuProc, m.bspId);
      && r.calls[0].cpu == c0
      && (replies[0] != Error(EBADCPU) ==> r.proc.cpu == c0 && r.cpuProc == cpuProc[c0 := Inc(cpuProc[c0])])
  {
  }

  /**
   One refusal under SMP for a user process: the refused CPU's count is
   overwritten with CPU_DEAD, the re-pick after the refusal charges the CPU
   the scan chooses over those counts, and the second try goes to the CPU the
   scan inside schedule_process chooses over the counts after that charge.
   When the second try is not refused, the process stays there and its CPU
   has been charged once more, so a CPU chosen by both picks carries two
   units.
   */
  lemma {:induction false} RetryRefusalStep(m: Machine, cpuProc: seq<U32>, p: SchedProc, replies: seq<Status>)
    requires m.Valid() && |cpuProc| == m.processorsCount
    requires EventuallyAccepts(replies)
    requires m.smp && !BypassesScan(m, p)
    requires replies[0] == Error(EBADCPU)
    ensures |replies| >= 2
    ensures var r := RetryLoop(m, cpuProc, p, replies);
      var c0 := ChooseCpu(cpuProc, m.bspId);
      var dead := cpuProc[c0 := CPU_DEAD];
      var c1 := ChooseCpu(dead, m.bspId);
      var charged := dead[c1 := Inc(dead[c1])];
      var c2 := ChooseCpu(charged, m.bspId);
      && |r.calls| >= 2
      && r.calls[0].cpu == c0
      && r.calls[1].cpu == c2
      && (replies[1] != Error(EBADCPU) ==>
            && r.proc.cpu == c2
            && r.cpuProc == charged[c2 := Inc(charged[c2])]
            && (c2 == c1 ==> r.cpuProc[c1] == Inc(Inc(dead[c1]))))
  {
    var r := RetryLoop(m, cpuProc, p, replies);
    var s := ScheduleProcess(m, cpuProc, p, SCHEDULE_CHANGE_ALL, replies[0]);
    var dead := s.cpuProc[s.proc.cpu := CPU_DEAD];
    var c0 := ChooseCpu(cpuProc, m.bspId);
    assert s.proc.cpu == c0;
    assert dead == cpuProc[c0 := CPU_DEAD];
    var pl := PickCpu(m, dead, s.proc);
    assert EventuallyAccepts(replies[1..]) by {
      var j :| 0 <= j < |replies| && replies[j] != Error(EBADCPU);
      assert replies[1..][j - 1] == replies[j];
    }
    var rest := RetryLoop(m, pl.cpuProc, pl.proc, replies[1..]);
    assert r.calls == [s.call] + rest.calls;
    assert r.cpuProc == rest.cpuProc && r.proc == rest.proc;
    RetryFirstTry(m, pl.cpuProc, pl.proc, replies[1..]);
    assert r.calls[1] == rest.calls[0];
  }

  /**
   Under SMP a system process is offered to the boot CPU on every try, dead
   or not. Each refusal marks the boot CPU dead and the bypass never charges
   it back, so after any refusal its count reads CPU_DEAD.
   */
  lemma {:induction false} SystemProcessRetriesOnBsp(m: Machine, cpuProc: seq<U32>, p: SchedProc, replies: seq<Status>)
    requires m.Valid() && |cpuProc| == m.processorsCount
    requires EventuallyAccepts(replies)
    requires m.smp && BypassesScan(m, p)
    ensures var r := RetryLoop(m, cpuProc, p, replies);
      && r.proc.cpu == m.bspId
      && (forall i :: 0 <= i < |r.calls| ==> r.calls[i].cpu == m.bspId)
      && (forall c :: 0 <= c < |cpuProc| && c != m.bspId ==> r.cpuProc[c] == cpuProc[c])
      && r.cpuProc[m.bspId] == (if Refusals(replies) > 0 then CPU_DEAD else cpuProc[m.bspId])
    decreases |replies|
  {
    var r := RetryLoop(m, cpuProc, p, replies);
    var s := ScheduleProcess(m, cpuProc, p, SCHEDULE_CHANGE_ALL, replies[0]);
    if replies[0] == Error(EBADCPU) {
      var dead := s.cpuProc[s.proc.cpu := CPU_DEAD];
      var pl := PickCpu(m, dead, s.proc);
      assert EventuallyAccepts(replies[1..]) by {
        var j :| 0 <= j < |replies| && replies[j] != Error(EBADCPU);
        assert replies[1..][j - 1] == replies[j];
      }
      var rest := RetryLoop(m, pl.cpuProc, pl.proc, replies[1..]);
      SystemProcessRetriesOnBsp(m, pl.cpuProc, pl.proc, replies[1..]);
      assert Refusals(replies) == 1 + Refusals(replies[1..]);
      assert r.calls == [s.call] + rest.calls;
      forall i | 0 <= i < |r.calls|
        ensures r.calls[i].cpu == m.bspId
      {
        if i > 0 {
          assert r.calls[i] == rest.calls[i - 1];
        }
      }
    }
  }

  /**
   A boot CPU marked dead comes back: when every non-boot CPU reads dead,
   the next user process falls back to the boot CPU and the increment wraps
   its count from CPU_DEAD to zero.
   */
  lemma DeadBspRevivedByFallback(m: Machine, cpuProc: seq<U32>, p: SchedProc)
    requires m.Valid() && |cpuProc| == m.processorsCount
    requires m.smp && !BypassesScan(m, p)
    requires forall c :: 0 <= c < |cpuProc| ==> cpuProc[c] == CPU_DEAD
    ensures PickCpu(m, cpuProc, p).proc.cpu == m.bspId
    ensures PickCpu(m, cpuProc, p).cpuProc[m.bspId] == 0
  {
  }

  // ---------------------------------------------------------------------
  // Admission
  // ---------------------------------------------------------------------

  /** The conditions under which do_start_scheduling returns OK. */
  predicate AdmissionAccepted(m: Machine, msg: StartMsg, o: StartOracle)
    requires EventuallyAccepts(o.replies)
  {
    && o.accepted
    && o.slot.Found?
    && ToUnsigned(msg.maxprio) < m.nrSchedQueues
    && (msg.kind.SchedulingInherit? ==> o.parentCheck == OK)
    && o.schedctl == OK
    && o.replies[Refusals(o.replies)] == OK
  }

  /** Admission succeeds exactly when every check passes and the dispatcher's first non-EBADCPU answer is OK. */
  lemma AdmitOkIff(m: Machine, st: State, msg: StartMsg, o: StartOracle)
    requires Valid(m, st) && EventuallyAccepts(o.replies)
    ensures DoStartScheduling(m, st, msg, o).rv == OK <==> AdmissionAccepted(m, msg, o)
  {
  }

  /**
   A maximum priority at or beyond NR_SCHED_QUEUES is refused with EINVAL
   before the record is marked in use, before any kernel call and before any
   load count moves; only the three message fields already copied into the
   record stay written.
   */
  lemma AdmitRejectsInvalidPriority(m: Machine, st: State, msg: StartMsg, o: StartOracle)
    requires Valid(m, st) && EventuallyAccepts(o.replies)
    requires o.accepted && o.slot.Found?
    requires ToUnsigned(msg.maxprio) >= m.nrSchedQueues
    ensures var r := DoStartScheduling(m, st, msg, o);
      var slot := o.slot.slot;
      && r.rv == Error(EINVAL)
      && r.calls == []
      && r.st.cpuProc == st.cpuProc
      && Proc(r.st, slot) == Proc(st, slot).(endpoint := msg.endpoint, parent := msg.parent, maxPriority := ToUnsigned(msg.maxprio))
      && Proc(r.st, slot).flags == Proc(st, slot).flags
      && (forall s :: s != slot ==> Proc(r.st, s) == Proc(st, s))
  {
  }

  /** The shape of a record admitted under FCFS: its priority is never better than its ceiling, nor worse than USER_Q. */
  predicate AdmittedShape(p: SchedProc) {
    p.maxPriority <= p.priority <= USER_Q
  }

  /**
   What a successful admission leaves in the record: in use, the message's
   endpoint and parent, the maximum priority clamped to USER_Q, and the
   priority and quantum the start kind dictates (the self-parent defaults
   are always overwritten).
   */
  lemma AdmitSuccessRecord(m: Machine, st: State, msg: StartMsg, o: StartOracle)
    requires Valid(m, st) && EventuallyAccepts(o.replies)
    requires DoStartScheduling(m, st, msg, o).rv == OK
    ensures o.slot.Found?
    ensures var r := DoStartScheduling(m, st, msg, o);
      var slot := o.slot.slot;
      var q := Proc(r.st, slot);
      && q.flags == IN_USE
      && q.endpoint == msg.endpoint
      && q.parent == msg.parent
      && q.maxPriority == (if ToUnsigned(msg.maxprio) >= USER_Q then USER_Q else ToUnsigned(msg.maxprio))
      && q.maxPriority < m.nrSchedQueues
      && (msg.kind.SchedulingStart? ==> q.priority == q.maxPriority && q.timeSlice == ToUnsigned(msg.quantum))
      && (msg.kind.SchedulingInherit? ==> q.priority == USER_Q && q.timeSlice == INHERIT_TIME_SLICE)
      && AdmittedShape(q)
      && q.priority < MIN_USER_Q
      && (forall s :: s != slot ==> Proc(r.st, s) == Proc(st, s))
  {
    AdmitOkIff(m, st, msg, o);
    StartReachesAdmit(m, st, msg, o);
  }

  /**
   Because of the clamp, every dispatcher call of an admission passes
   niced = false.
   */
  lemma AdmitNeverNiced(m: Machine, st: State, msg: StartMsg, o: StartOracle)
    requires Valid(m, st) && EventuallyAccepts(o.replies)
    ensures var r := DoStartScheduling(m, st, msg, o);
      forall i :: 0 <= i < |r.calls| && r.calls[i].Schedule? ==> !r.calls[i].niced
  {
  }

  /**
   A start message with quantum -1 stores UINT_MAX as the quantum, which
   every dispatcher call of the admission passes as -1, that is "keep the
   kernel's quantum".
   */
  lemma StartWithQuantumMinusOneKeepsKernelQuantum(m: Machine, st: State, msg: StartMsg, o: StartOracle)
    requires Valid(m, st) && EventuallyAccepts(o.replies)
    requires msg.kind.SchedulingStart? && msg.quantum == -1
    ensures var r := DoStartScheduling(m, st, msg, o);
      && (r.rv == OK ==> Proc(r.st, o.slot.slot).timeSlice == UINT_MAX)
      && forall i :: 0 <= i < |r.calls| && r.calls[i].Schedule? ==> r.calls[i].quantum == NO_CHANGE
  {
  }

  /** Once the permission, slot, priority and parent checks pass, do_start_scheduling is its tail. */
  lemma StartReachesAdmit(m: Machine, st: State, msg: StartMsg, o: StartOracle)
    requires Valid(m, st) && EventuallyAccepts(o.replies)
    requires o.accepted && o.slot.Found?
    requires ToUnsigned(msg.maxprio) < m.nrSchedQueues
    requires msg.kind.SchedulingInherit? ==> o.parentCheck == OK
    ensures Admitted(m, st, msg, o.slot.slot).cpu < m.processorsCount
    ensures DoStartScheduling(m, st, msg, o) == Admit(m, st, o.slot.slot, Admitted(m, st, msg, o.slot.slot), o)
  {
  }

  /**
   Once the message, slot and priority checks pass, every error of the later
   steps is returned as it came: the parent lookup's (with no kernel call),
   sys_schedctl's (after that call only), or the dispatcher's first answer
   other than EBADCPU. On every such path sys_schedctl is the first kernel
   call, and no other slot changes.
   */
  lemma AdmitErrorsPassThrough(m: Machine, st: State, msg: StartMsg, o: StartOracle)
    requires Valid(m, st) && EventuallyAccepts(o.replies)
    requires o.accepted && o.slot.Found? && ToUnsigned(msg.maxprio) < m.nrSchedQueues
    ensures var r := DoStartScheduling(m, st, msg, o);
      && (msg.kind.SchedulingInherit? && o.parentCheck != OK ==> r.rv == o.parentCheck && r.calls == [])
      && ((msg.kind.SchedulingStart? || o.parentCheck == OK) ==>
            && |r.calls| >= 1
            && r.calls[0] == SchedCtl(msg.endpoint)
            && (o.schedctl != OK ==> r.rv == o.schedctl && |r.calls| == 1)
            && (o.schedctl == OK ==> r.rv == o.replies[Refusals(o.replies)]))
      && (forall s :: s != o.slot.slot ==> Proc(r.st, s) == Proc(st, s))
  {
  }

  /**
   When sys_schedctl and the first dispatch both accept, the admission's
   tail leaves the record and the counts as the two picks (before the loop
   and inside schedule_process) leave them.
   */
  lemma AdmitFirstTryAccepted(m: Machine, st: State, slot: nat, p: SchedProc, o: StartOracle)
    requires Valid(m, st) && p.cpu < m.processorsCount
    requires EventuallyAccepts(o.replies)
    requires o.schedctl == OK && o.replies[0] == OK
    ensures var r := Admit(m, st, slot, p, o);
      var pl := PickCpu(m, st.cpuProc, p.(flags := IN_USE));
      var pl2 := PickCpu(m, pl.cpuProc, pl.proc);
      && r.rv == OK
      && r.st.cpuProc == pl2.cpuProc
      && Proc(r.st, slot) == pl2.proc
  {
  }

  /**
   The admission's tail after sys_schedctl succeeded: the record is in use
   whatever the dispatcher answers, it sits on the CPU of the last dispatch,
   and every non-boot CPU the dispatcher refused reads CPU_DEAD in the
   server's counts.
   */
  lemma AdmitTailMarksRefusedCpusDead(m: Machine, st: State, slot: nat, p: SchedProc, o: StartOracle)
    requires Valid(m, st) && p.cpu < m.processorsCount
    requires EventuallyAccepts(o.replies)
    requires o.schedctl == OK
    ensures var r := Admit(m, st, slot, p, o);
      && |r.calls| == Refusals(o.replies) + 2
      && (forall i :: 0 < i < |r.calls| ==> r.calls[i].Schedule? && 0 <= r.calls[i].cpu < m.processorsCount)
      && Proc(r.st, slot).flags == IN_USE
      && Proc(r.st, slot).cpu == r.calls[|r.calls| - 1].cpu
      && (forall i :: 0 < i <= Refusals(o.replies) && r.calls[i].cpu != m.bspId ==>
            r.st.cpuProc[r.calls[i].cpu] == CPU_DEAD)
  {
    var r := Admit(m, st, slot, p, o);
    var pl := PickCpu(m, st.cpuProc, p.(flags := IN_USE));
    var lp := RetryLoop(m, pl.cpuProc, pl.proc, o.replies);
    assert r.calls == [SchedCtl(p.endpoint)] + lp.calls;
    assert r.st.cpuProc == lp.cpuProc;
    forall i | 0 < i <= Refusals(o.replies) && r.calls[i].cpu != m.bspId
      ensures r.st.cpuProc[r.calls[i].cpu] == CPU_DEAD
    {
      assert r.calls[i] == lp.calls[i - 1];
      RetryMarksRefusedCpusDead(m, pl.cpuProc, pl.proc, o.replies, i - 1);
    }
  }

  /**
   What admission leaves in the server once the message, slot and priority
   checks pass. A failed parent lookup or sys_schedctl returns before the
   record is marked in use and before any count moves. Once sys_schedctl
   succeeds the record is in use whatever the dispatcher answers, it sits on
   the CPU of the last dispatch, and every non-boot CPU the dispatcher
   refused reads CPU_DEAD in the server's counts.
   */
  lemma AdmitLeavesState(m: Machine, st: State, msg: StartMsg, o: StartOracle)
    requires Valid(m, st) && EventuallyAccepts(o.replies)
    requires o.accepted && o.slot.Found? && ToUnsigned(msg.maxprio) < m.nrSchedQueues
    ensures var r := DoStartScheduling(m, st, msg, o);
      var slot := o.slot.slot;
      && ((msg.kind.SchedulingInherit? && o.parentCheck != OK) || o.schedctl != OK ==>
            && r.st.cpuProc == st.cpuProc
            && Proc(r.st, slot).flags == Proc(st, slot).flags)
      && ((msg.kind.SchedulingStart? || o.parentCheck == OK) && o.schedctl == OK ==>
            && |r.calls| == Refusals(o.replies) + 2
            && (forall i :: 0 < i < |r.calls| ==> r.calls[i].Schedule? && 0 <= r.calls[i].cpu < m.processorsCount)
            && Proc(r.st, slot).flags == IN_USE
            && Proc(r.st, slot).cpu == r.calls[|r.calls| - 1].cpu
            && (forall i :: 0 < i <= Refusals(o.replies) && r.calls[i].cpu != m.bspId ==>
                  r.st.cpuProc[r.calls[i].cpu] == CPU_DEAD))
  {
    var slot := o.slot.slot;
    if (msg.kind.SchedulingStart? || o.parentCheck == OK) && o.schedctl == OK {
      StartReachesAdmit(m, st, msg, o);
      AdmitTailMarksRefusedCpusDead(m, st, slot, Admitted(m, st, msg, slot), o);
    }
  }

  // ---------------------------------------------------------------------
  // Removal
  // ---------------------------------------------------------------------

  /**
   Admission charges a CPU twice (pick_cpu before the loop and again inside
   schedule_process) while removal releases once. Under SMP, for a user
   process on a machine with several CPUs whose first dispatch is accepted,
   admitting then removing leaves exactly one extra unit on the CPU the first
   pick chose.
   */
  lemma AdmitThenStopLeavesOneUnit(m: Machine, st: State, msg: StartMsg, o: StartOracle)
    requires Valid(m, st) && EventuallyAccepts(o.replies)
    requires m.smp && m.processorsCount > 1 && msg.parent != m.rsProcNr
    requires AdmissionAccepted(m, msg, o) && o.replies[0] == OK
    ensures var r := DoStartScheduling(m, st, msg, o);
      var gone := DoStopScheduling(m, r.st, true, o.slot);
      var c1 := ChooseCpu(st.cpuProc, m.bspId);
      && gone.rv == OK
      && Proc(gone.st, o.slot.slot).flags == 0
      && gone.st.cpuProc == st.cpuProc[c1 := Inc(st.cpuProc[c1])]
  {
    var slot := o.slot.slot;
    var q := Admitted(m, st, msg, slot);
    StartReachesAdmit(m, st, msg, o);
    AdmitFirstTryAccepted(m, st, slot, q, o);
    var r := DoStartScheduling(m, st, msg, o);
    var pl := PickCpu(m, st.cpuProc, q.(flags := IN_USE));
    var pl2 := PickCpu(m, pl.cpuProc, pl.proc);
    var c2 := pl2.proc.cpu;
    assert Proc(r.st, slot).cpu == c2;
    IncDecInverse(pl.cpuProc[c2]);
    assert pl2.cpuProc[c2 := Dec(pl2.cpuProc[c2])] == pl.cpuProc;
  }

  /**
   Under SMP, a system process (or any process on a one-CPU machine) is
   placed on the boot CPU without a charge, yet removal still releases one
   unit there: when its first dispatch is accepted, admitting then removing
   leaves the boot CPU's count one lower (wrapping from zero to UINT_MAX).
   */
  lemma AdmitThenStopBypassDrainsBsp(m: Machine, st: State, msg: StartMsg, o: StartOracle)
    requires Valid(m, st) && EventuallyAccepts(o.replies)
    requires m.smp && (m.processorsCount == 1 || msg.parent == m.rsProcNr)
    requires AdmissionAccepted(m, msg, o) && o.replies[0] == OK
    ensures var r := DoStartScheduling(m, st, msg, o);
      var gone := DoStopScheduling(m, r.st, true, o.slot);
      && gone.rv == OK
      && Proc(gone.st, o.slot.slot).flags == 0
      && gone.st.cpuProc == st.cpuProc[m.bspId := Dec(st.cpuProc[m.bspId])]
  {
  }

  /**
   Without SMP no load count is charged or released: when the first dispatch
   is accepted, admitting then removing leaves every count as it was.
   */
  lemma AdmitThenStopUniprocessorKeepsCounts(m: Machine, st: State, msg: StartMsg, o: StartOracle)
    requires Valid(m, st) && EventuallyAccepts(o.replies)
    requires !m.smp
    requires AdmissionAccepted(m, msg, o) && o.replies[0] == OK
    ensures var r := DoStartScheduling(m, st, msg, o);
      var gone := DoStopScheduling(m, r.st, true, o.slot);
      && gone.rv == OK
      && Proc(gone.st, o.slot.slot).flags == 0
      && gone.st.cpuProc == st.cpuProc
  {
  }

  /**
   Removal undoes the dead mark: decrementing a count that reads CPU_DEAD
   leaves UINT_MAX - 1, so when every other non-boot CPU reads dead the next
   user process is placed on that CPU again.
   */
  lemma StopRevivesDeadCpu(m: Machine, st: State, slot: nat, p: SchedProc)
    requires Valid(m, st) && m.smp && m.processorsCount > 1 && !BypassesScan(m, p)
    requires Proc(st, slot).cpu != m.bspId && st.cpuProc[Proc(st, slot).cpu] == CPU_DEAD
    requires forall c :: 0 <= c < |st.cpuProc| && c != m.bspId ==> st.cpuProc[c] == CPU_DEAD
    ensures var gone := DoStopScheduling(m, st, true, Found(slot));
      var c := Proc(st, slot).cpu;
      && gone.st.cpuProc[c] == UINT_MAX - 1
      && PickCpu(m, gone.st.cpuProc, p).proc.cpu == c
  {
  }

  // ---------------------------------------------------------------------
  // Runs of messages
  // ---------------------------------------------------------------------

  predicate NoAdmission(events: seq<Event>) {
    forall i :: 0 <= i < |events| ==> !events[i].StartScheduling?
  }

  /** The fields only admission writes. */
  predicate SameParams(p: SchedProc, q: SchedProc) {
    && p.endpoint == q.endpoint
    && p.parent == q.parent
    && p.maxPriority == q.maxPriority
    && p.priority == q.priority
    && p.timeSlice == q.timeSlice
  }

  /**
   Without an admission, no handler changes a record's endpoint, parent,
   maximum priority, priority or quantum: quantum expiry (however often it
   repeats), removal and nice leave them alone, so an admitted record keeps
   its admitted shape.
   */
  lemma {:induction false} RunWithoutAdmissionKeepsParams(m: Machine, st: State, events: seq<Event>, slot: nat)
    requires Valid(m, st) && NoAdmission(events)
    requires forall i :: 0 <= i < |events| ==> Admissible(events[i])
    ensures SameParams(Proc(st, slot), Proc(Run(m, st, events), slot))
    decreases |events|
  {
    if |events| > 0 {
      var next := Step(m, st, events[0]).st;
      assert SameParams(Proc(st, slot), Proc(next, slot));
      RunWithoutAdmissionKeepsParams(m, next, events[1..], slot);
    }
  }

  /** The run with every nice request dropped. */
  function WithoutNice(events: seq<Event>): (r: seq<Event>)
    ensures |r| <= |events|
    ensures forall i :: 0 <= i < |r| ==> !r[i].NiceRequest?
    ensures forall i :: 0 <= i < |r| ==> r[i] in events
  {
    if |events| == 0 then []
    else if events[0].NiceRequest? then WithoutNice(events[1..])
    else [events[0]] + WithoutNice(events[1..])
  }

  /** Nice requests are invisible: dropping them from a run does not change where it ends. */
  lemma {:induction false} NiceIsInvisible(m: Machine, st: State, events: seq<Event>)
    requires Valid(m, st)
    requires forall i :: 0 <= i < |events| ==> Admissible(events[i])
    ensures forall i :: 0 <= i < |WithoutNice(events)| ==> Admissible(WithoutNice(events)[i])
    ensures Run(m, st, events) == Run(m, st, WithoutNice(events))
    decreases |events|
  {
    if |events| > 0 {
      NiceIsInvisible(m, Step(m, st, events[0]).st, events[1..]);
      var rest := WithoutNice(events[1..]);
      if !events[0].NiceRequest? {
        var w := [events[0]] + rest;
        assert w[1..] == rest;
      }
    }
  }
}

=== FILE: sched.dfy ===
/**
 The scheduler's constants, its per-process scheduling records and the state
 the FCFS policy server keeps between messages: one unsigned load count per
 CPU and a table of records indexed by process slot.
 */
module Sched {
  import opened Unsigned

  /** First user queue; every user process is queued here under FCFS. */
  const USER_Q: U32 := 12
  /** Last user queue. */
  const MIN_USER_Q: U32 := 14
  /** Quantum given to a self-parented process before the start switch. */
  const DEFAULT_USER_TIME_SLICE: U32 := 200
  /** Quantum forced on every inherited (forked) user process. */
  const INHERIT_TIME_SLICE: U32 := 5000

  /** The "in use" bit of a record's flags. */
  const IN_USE: nat := 1

  /** Bits of the mask handed to schedule_process. */
  const SCHEDULE_CHANGE_PRIO: bv32 := 0x1
  const SCHEDULE_CHANGE_QUANTUM: bv32 := 0x2
  const SCHEDULE_CHANGE_CPU: bv32 := 0x4
  const SCHEDULE_CHANGE_ALL: bv32 := SCHEDULE_CHANGE_PRIO | SCHEDULE_CHANGE_QUANTUM | SCHEDULE_CHANGE_CPU
  /** The mask of schedule_process_local: priority and quantum, not the CPU. */
  const SCHEDULE_LOCAL: bv32 := SCHEDULE_CHANGE_PRIO | SCHEDULE_CHANGE_QUANTUM

  /** `CPU_DEAD` is `-1`, written into an unsigned load count. */
  const CPU_DEAD: U32 := ToUnsigned(-1)

  /** The "no change" argument of the dispatcher call. */
  const NO_CHANGE: int := -1

  /**
   The machine description and build configuration the policy server sees:
   `processorsCount` and `bspId` come from the kernel's machine record,
   `nrSchedQueues` is NR_SCHED_QUEUES, `rsProcNr` the endpoint of the
   resource server, `smp` whether CONFIG_SMP is defined.
   */
  datatype Machine = Machine(
    processorsCount: nat,
    bspId: nat,
    nrSchedQueues: nat,
    rsProcNr: int,
    smp: bool)
  {
    /** `bsp_id` names a processor; `processors_count` is an `int`. */
    predicate Valid() {
      bspId < processorsCount <= INT_MAX
    }
  }

  /** Error numbers that reach the handlers' callers. */
  datatype Errno = EINVAL | EPERM | EBADEPT | EBADCPU | Other(code: int)

  /** Return value of a handler or of a kernel call. */
  datatype Status = OK | Error(errno: Errno)

  /** One process's scheduling record. */
  datatype SchedProc = SchedProc(
    endpoint: int,
    parent: int,
    flags: nat,
    maxPriority: U32,
    priority: U32,
    timeSlice: U32,
    cpu: nat)

  /** A record never written since start-up: static storage is zeroed. */
  const ZERO_PROC: SchedProc := SchedProc(0, 0, 0, 0, 0, 0, 0)

  /** The server's whole state: CPU load counts and the record table. */
  datatype State = State(cpuProc: seq<U32>, schedproc: map<nat, SchedProc>)

  /** The record stored at `slot`. */
  function Proc(st: State, slot: nat): SchedProc {
    if slot in st.schedproc then st.schedproc[slot] else ZERO_PROC
  }

  /** The state after writing `p` into `slot`. */
  function Store(st: State, slot: nat, p: SchedProc): (r: State)
    ensures r.cpuProc == st.cpuProc
    ensures Proc(r, slot) == p
    ensures forall s :: s != slot ==> Proc(r, s) == Proc(st, s)
  {
    st.(schedproc := st.schedproc[slot := p])
  }

  /**
   The state invariant: one load count per processor, and every record names
   a processor that exists, so that indexing the load counts by it is safe.
   */
  predicate Valid(m: Machine, st: State) {
    && m.Valid()
    && |st.cpuProc| == m.processorsCount
    && forall s :: s in st.schedproc ==> st.schedproc[s].cpu < m.processorsCount
  }

  /** The start state: all load counts zero, no record written. */
  function Init(m: Machine): (st: State)
    requires m.Valid()
    ensures Valid(m, st)
    ensures forall c :: 0 <= c < |st.cpuProc| ==> st.cpuProc[c] == 0
    ensures forall s :: Proc(st, s) == ZERO_PROC
  {
    State(seq(m.processorsCount, _ => 0), map[])
  }

  /**
   A kernel call issued by the server: `SchedCtl` is sys_schedctl taking the
   process over, `Schedule` is sys_schedule with NO_CHANGE for every field
   the call leaves alone.
   */
  datatype Call =
    | SchedCtl(target: int)
    | Schedule(endpoint: int, prio: int, quantum: int, cpu: int, niced: bool)

  /**
   The answer of an endpoint-to-slot helper (sched_isokendpt or
   sched_isemtyendpt), whose code is outside this model.
   */
  datatype Lookup = Found(slot: nat) | Refused(errno: Errno)
}

=== FILE: schedule.dfy ===
/**
 The FCFS policy handlers: schedule_process (the dispatcher call with its
 "no change" arguments and niced flag), admission with its EBADCPU retry
 loop, quantum expiry, removal and nice, and the state machine they make up.
 Every answer of code outside the model (message checks, endpoint lookups,
 kernel calls) is an explicit input.
 */
module Schedule {
  import opened Unsigned
  import opened Sched
  import opened CpuLoad

  /** What a handler returns: the new state, its status and the kernel calls it made. */
  datatype Outcome = Outcome(st: State, rv: Status, calls: seq<Call>)

  // ---------------------------------------------------------------------
  // schedule_process
  // ---------------------------------------------------------------------

  /** Result of schedule_process: the re-picked placement, the call made and the dispatcher's reply. */
  datatype Dispatched = Dispatched(cpuProc: seq<U32>, proc: SchedProc, call: Call, rv: Status)

  /**
   schedule_process: re-pick the CPU, then hand the dispatcher the fields
   named in `flags` (NO_CHANGE for the others) and the niced flag; the
   dispatcher's answer is `reply`. The unsigned fields travel in `int`
   arguments, so they are converted as C converts them.
   */
  function ScheduleProcess(m: Machine, cpuProc: seq<U32>, p: SchedProc, flags: bv32, reply: Status): (r: Dispatched)
    requires m.Valid() && |cpuProc| == m.processorsCount
    ensures Placement(r.cpuProc, r.proc) == PickCpu(m, cpuProc, p)
    ensures r.call.Schedule? && r.call.endpoint == p.endpoint
    ensures r.call.niced <==> p.maxPriority > USER_Q
    ensures r.rv == reply
    ensures flags == SCHEDULE_CHANGE_ALL ==> FullCall(m, p, r.call) && r.call.cpu == r.proc.cpu
  {
    var pl := PickCpu(m, cpuProc, p);
    var q := pl.proc;
    var newPrio := if flags & SCHEDULE_CHANGE_PRIO != 0 then ToInt32(q.priority) else NO_CHANGE;
    var newQuantum := if flags & SCHEDULE_CHANGE_QUANTUM != 0 then ToInt32(q.timeSlice) else NO_CHANGE;
    var newCpu := if flags & SCHEDULE_CHANGE_CPU != 0 then ToInt32(q.cpu) else NO_CHANGE;
    var niced := q.maxPriority > USER_Q;
    Dispatched(pl.cpuProc, q, Schedule(q.endpoint, newPrio, newQuantum, newCpu, niced), reply)
  }

  /** The parameters the dispatcher keeps for a process. */
  datatype KernelParams = KernelParams(priority: int, quantum: int, cpu: int)

  /** How the dispatcher reads a sys_schedule call: NO_CHANGE keeps the field. */
  function Apply(k: KernelParams, c: Call): KernelParams
    requires c.Schedule?
  {
    KernelParams(
      if c.prio == NO_CHANGE then k.priority else c.prio,
      if c.quantum == NO_CHANGE then k.quantum else c.quantum,
      if c.cpu == NO_CHANGE then k.cpu else c.cpu)
  }

  /**
   Whatever the dispatcher held before, a field left out of the mask keeps
   its value, and a field named in the mask ends up equal to the record's
   value as long as that value fits in an `int` (the re-picked CPU always
   does, since it is below `processors_count`).
   */
  lemma ScheduleArgsRoundTrip(m: Machine, cpuProc: seq<U32>, p: SchedProc, flags: bv32, reply: Status, k: KernelParams)
    requires m.Valid() && |cpuProc| == m.processorsCount
    ensures var r := ScheduleProcess(m, cpuProc, p, flags, reply);
      && (flags & SCHEDULE_CHANGE_PRIO == 0 ==> Apply(k, r.call).priority == k.priority)
      && (flags & SCHEDULE_CHANGE_PRIO != 0 && p.priority <= INT_MAX ==> Apply(k, r.call).priority == p.priority)
      && (flags & SCHEDULE_CHANGE_QUANTUM == 0 ==> Apply(k, r.call).quantum == k.quantum)
      && (flags & SCHEDULE_CHANGE_QUANTUM != 0 && p.timeSlice <= INT_MAX ==> Apply(k, r.call).quantum == p.timeSlice)
      && Apply(k, r.call).cpu == (if flags & SCHEDULE_CHANGE_CPU != 0 then r.proc.cpu else k.cpu)
  {
  }

  /**
   The "no change" encoding is ambiguous: a priority or quantum of UINT_MAX
   (a start message with quantum -1 stores one) reaches the dispatcher as
   -1 and is read as "keep", even when the mask names the field.
   */
  lemma MaxFieldReadAsKeep(m: Machine, cpuProc: seq<U32>, p: SchedProc, flags: bv32, reply: Status, k: KernelParams)
    requires m.Valid() && |cpuProc| == m.processorsCount
    ensures var r := ScheduleProcess(m, cpuProc, p, flags, reply);
      && (p.priority == UINT_MAX ==> r.call.prio == NO_CHANGE && Apply(k, r.call).priority == k.priority)
      && (p.timeSlice == UINT_MAX ==> r.call.quantum == NO_CHANGE && Apply(k, r.call).quantum == k.quantum)
  {
  }

  // ---------------------------------------------------------------------
  // The EBADCPU retry loop of admission
  // ---------------------------------------------------------------------

  /**
   The dispatcher eventually answers something other than EBADCPU. The
   source loops for as long as it answers EBADCPU; this is the assumption
   under which the loop ends.
   */
  predicate EventuallyAccepts(replies: seq<Status>) {
    exists i :: 0 <= i < |replies| && replies[i] != Error(EBADCPU)
  }

  /** The number of EBADCPU answers before the first other one. */
  function Refusals(replies: seq<Status>): (n: nat)
    requires EventuallyAccepts(replies)
    ensures n < |replies| && replies[n] != Error(EBADCPU)
    ensures forall i :: 0 <= i < n ==> replies[i] == Error(EBADCPU)
  {
    if replies[0] != Error(EBADCPU) then 0
    else
      assert EventuallyAccepts(replies[1..]) by {
        var i :| 0 <= i < |replies| && replies[i] != Error(EBADCPU);
        assert replies[1..][i - 1] == replies[i];
      }
      1 + Refusals(replies[1..])
  }

  /** A sys_schedule call that hands over every field of `p`, on a CPU that exists. */
  predicate FullCall(m: Machine, p: SchedProc, c: Call) {
    && c.Schedule?
    && c.endpoint == p.endpoint
    && c.prio == ToInt32(p.priority)
    && c.quantum == ToInt32(p.timeSlice)
    && 0 <= c.cpu < m.processorsCount
    && c.niced == (p.maxPriority > USER_Q)
  }

  /** Calls that hand over every field of `q` hand over every field of any record differing from it in cpu only. */
  lemma FullCallsExtend(m: Machine, p: SchedProc, q: SchedProc, c: Call, rest: seq<Call>)
    requires q == p.(cpu := q.cpu)
    requires FullCall(m, p, c)
    requires forall i :: 0 <= i < |rest| ==> FullCall(m, q, rest[i])
    ensures forall i :: 0 <= i < |[c] + rest| ==> FullCall(m, p, ([c] + rest)[i])
  {
    var calls := [c] + rest;
    forall i | 0 <= i < |calls|
      ensures FullCall(m, p, calls[i])
    {
      if i > 0 {
        assert calls[i] == rest[i - 1];
      }
    }
  }

  /** Result of the retry loop. */
  datatype LoopResult = LoopResult(cpuProc: seq<U32>, proc: SchedProc, calls: seq<Call>, rv: Status)

  /**
   The admission retry loop: dispatch with every field; while the
   dispatcher answers EBADCPU, write CPU_DEAD into the refused CPU's count,
   pick again and dispatch again. The dispatcher answers from `replies`.
   */
  function RetryLoop(m: Machine, cpuProc: seq<U32>, p: SchedProc, replies: seq<Status>): (r: LoopResult)
    requires m.Valid() && |cpuProc| == m.processorsCount
    requires EventuallyAccepts(replies)
    ensures |r.cpuProc| == |cpuProc|
    ensures r.proc.cpu < m.processorsCount
    ensures r.proc == p.(cpu := r.proc.cpu)
    ensures r.rv == replies[Refusals(replies)]
    ensures |r.calls| == Refusals(replies) + 1
    ensures forall i :: 0 <= i < |r.calls| ==> FullCall(m, p, r.calls[i])
    ensures FullCall(m, p, r.calls[|r.calls| - 1]) && r.calls[|r.calls| - 1].cpu == r.proc.cpu
    decreases |replies|
  {
    var s := ScheduleProcess(m, cpuProc, p, SCHEDULE_CHANGE_ALL, replies[0]);
    if replies[0] == Error(EBADCPU) then
      var dead := s.cpuProc[s.proc.cpu := CPU_DEAD];
      var pl := PickCpu(m, dead, s.proc);
      assert EventuallyAccepts(replies[1..]) by {
        var i :| 0 <= i < |replies| && replies[i] != Error(EBADCPU);
        assert replies[1..][i - 1] == replies[i];
      }
      var rest := RetryLoop(m, pl.cpuProc, pl.proc, replies[1..]);
      assert Refusals(replies) == 1 + Refusals(replies[1..]);
      assert rest.rv == replies[Refusals(replies)];
      FullCallsExtend(m, p, pl.proc, s.call, rest.calls);
      LoopResult(rest.cpuProc, rest.proc, [s.call] + rest.calls, rest.rv)
    else
      LoopResult(s.cpuProc, s.proc, [s.call], s.rv)
  }

  // ---------------------------------------------------------------------
  // The handlers
  // ---------------------------------------------------------------------

  /** do_noquantum: reschedule in place with priority and quantum, no CPU argument. */
  function DoNoQuantum(m: Machine, st: State, lookup: Lookup, reply: Status): (o: Outcome)
    requires Valid(m, st)
    ensures Valid(m, o.st)
    ensures lookup.Refused? ==> o == Outcome(st, Error(EBADEPT), [])
    ensures lookup.Found? ==>
      var slot := lookup.slot;
      var p := Proc(st, slot);
      && Proc(o.st, slot) == p.(cpu := Proc(o.st, slot).cpu)
      && (forall s :: s != slot ==> Proc(o.st, s) == Proc(st, s))
      && Placement(o.st.cpuProc, Proc(o.st, slot)) == PickCpu(m, st.cpuProc, p)
      && o.rv == reply
      && o.calls == [Schedule(p.endpoint, ToInt32(p.priority), ToInt32(p.timeSlice), NO_CHANGE, p.maxPriority > USER_Q)]
  {
    match lookup
    case Refused(_) => Outcome(st, Error(EBADEPT), [])
    case Found(slot) =>
      var s := ScheduleProcess(m, st.cpuProc, Proc(st, slot), SCHEDULE_LOCAL, reply);
      Outcome(Store(State(s.cpuProc, st.schedproc), slot, s.proc), s.rv, [s.call])
  }

  /** do_stop_scheduling: release one unit of the record's CPU count and clear its flags. */
  function DoStopScheduling(m: Machine, st: State, accepted: bool, lookup: Lookup): (o: Outcome)
    requires Valid(m, st)
    ensures Valid(m, o.st)
    ensures o.calls == []
    ensures o.rv == OK <==> accepted && lookup.Found?
    ensures o.rv != OK ==> o.st == st
    ensures !accepted ==> o.rv == Error(EPERM)
    ensures accepted && lookup.Refused? ==> o == Outcome(st, Error(EBADEPT), [])
    ensures o.rv == OK ==>
      var slot := lookup.slot;
      var p := Proc(st, slot);
      && Proc(o.st, slot) == p.(flags := 0)
      && (forall s :: s != slot ==> Proc(o.st, s) == Proc(st, s))
      && o.st.cpuProc == (if m.smp then st.cpuProc[p.cpu := Dec(st.cpuProc[p.cpu])] else st.cpuProc)
  {
    if !accepted then Outcome(st, Error(EPERM), [])
    else match lookup
      case Refused(_) => Outcome(st, Error(EBADEPT), [])
      case Found(slot) =>
        var p := Proc(st, slot);
        var loads := if m.smp then st.cpuProc[p.cpu := Dec(st.cpuProc[p.cpu])] else st.cpuProc;
        Outcome(Store(State(loads, st.schedproc), slot, p.(flags := 0)), OK, [])
  }

  /** The two kinds of admission message. */
  datatype StartKind = SchedulingStart | SchedulingInherit

  /** An admission request; `maxprio` and `quantum` are the message's signed fields. */
  datatype StartMsg = StartMsg(kind: StartKind, endpoint: int, parent: int, maxprio: int, quantum: int)

  /**
   The answers of code outside the model during one admission:
   accept_message, sched_isemtyendpt, sched_isokendpt on the parent,
   sys_schedctl and the successive answers of sys_schedule.
   */
  datatype StartOracle = StartOracle(
    accepted: bool,
    slot: Lookup,
    parentCheck: Status,
    schedctl: Status,
    replies: seq<Status>)

  /**
   The record as do_start_scheduling has written it before the start switch:
   message fields, the clamp to USER_Q and the self-parent defaults.
   */
  function Prepared(m: Machine, prev: SchedProc, msg: StartMsg): SchedProc {
    var p0 := prev.(endpoint := msg.endpoint, parent := msg.parent, maxPriority := ToUnsigned(msg.maxprio));
    var p1 := if p0.maxPriority >= USER_Q then p0.(maxPriority := USER_Q) else p0;
    if p1.endpoint == p1.parent then
      p1.(priority := USER_Q, timeSlice := DEFAULT_USER_TIME_SLICE, cpu := if m.smp then m.bspId else p1.cpu)
    else p1
  }

  /**
   The record do_start_scheduling hands to its tail: the prepared record
   with the priority and quantum the start kind dictates.
   */
  function Admitted(m: Machine, st: State, msg: StartMsg, slot: nat): SchedProc {
    var p := Prepared(m, Proc(st, slot), msg);
    match msg.kind
    case SchedulingStart => p.(priority := p.maxPriority, timeSlice := ToUnsigned(msg.quantum))
    case SchedulingInherit => p.(priority := USER_Q, timeSlice := INHERIT_TIME_SLICE)
  }

  /** The tail of do_start_scheduling: take the process over, mark it in use, pick, dispatch. */
  function Admit(m: Machine, st: State, slot: nat, p: SchedProc, o: StartOracle): (r: Outcome)
    requires Valid(m, st) && p.cpu < m.processorsCount
    requires EventuallyAccepts(o.replies)
    ensures Valid(m, r.st)
  {
    if o.schedctl != OK then Outcome(Store(st, slot, p), o.schedctl, [SchedCtl(p.endpoint)])
    else
      var pl := PickCpu(m, st.cpuProc, p.(flags := IN_USE));
      var lp := RetryLoop(m, pl.cpuProc, pl.proc, o.replies);
      Outcome(Store(State(lp.cpuProc, st.schedproc), slot, lp.proc), lp.rv, [SchedCtl(p.endpoint)] + lp.calls)
  }

  /** do_start_scheduling. */
  function DoStartScheduling(m: Machine, st: State, msg: StartMsg, o: StartOracle): (r: Outcome)
    requires Valid(m, st)
    requires EventuallyAccepts(o.replies)
    ensures Valid(m, r.st)
    ensures !o.accepted ==> r == Outcome(st, Error(EPERM), [])
    ensures o.accepted && o.slot.Refused? ==> r == Outcome(st, Error(o.slot.errno), [])
  {
    if !o.accepted then Outcome(st, Error(EPERM), [])
    else match o.slot
      case Refused(e) => Outcome(st, Error(e), [])
      case Found(slot) =>
        var prev := Proc(st, slot);
        var written := prev.(endpoint := msg.endpoint, parent := msg.parent, maxPriority := ToUnsigned(msg.maxprio));
        if written.maxPriority >= m.nrSchedQueues then Outcome(Store(st, slot, written), Error(EINVAL), [])
        else
          match msg.kind
          case SchedulingStart => Admit(m, st, slot, Admitted(m, st, msg, slot), o)
          case SchedulingInherit =>
            if o.parentCheck != OK then Outcome(Store(st, slot, Prepared(m, prev, msg)), o.parentCheck, [])
            else Admit(m, st, slot, Admitted(m, st, msg, slot), o)
  }

  /** do_nice: under FCFS a priority request is accepted and has no effect. */
  function DoNice(st: State): (o: Outcome)
    ensures o.st == st && o.rv == OK && o.calls == []
  {
    Outcome(st, OK, [])
  }

  // ---------------------------------------------------------------------
  // The state machine
  // ---------------------------------------------------------------------

  /** A message the server handles, with the answers of the code it calls. */
  datatype Event =
    | StartScheduling(msg: StartMsg, oracle: StartOracle)
    | StopScheduling(accepted: bool, lookup: Lookup)
    | NoQuantum(lookup: Lookup, reply: Status)
    | NiceRequest

  /** Events whose handler is known to finish. */
  predicate Admissible(e: Event) {
    e.StartScheduling? ==> EventuallyAccepts(e.oracle.replies)
  }

  function Step(m: Machine, st: State, e: Event): (o: Outcome)
    requires Valid(m, st) && Admissible(e)
    ensures Valid(m, o.st)
  {
    match e
    case StartScheduling(msg, oracle) => DoStartScheduling(m, st, msg, oracle)
    case StopScheduling(accepted, lookup) => DoStopScheduling(m, st, accepted, lookup)
    case NoQuantum(lookup, reply) => DoNoQuantum(m, st, lookup, reply)
    case NiceRequest => DoNice(st)
  }

  /** The state after handling `events` in order. */
  function Run(m: Machine, st: State, events: seq<Event>): (r: State)
    requires Valid(m, st)
    requires forall i :: 0 <= i < |events| ==> Admissible(events[i])
    ensures Valid(m, r)
    decreases |events|
  {
    if |events| == 0 then st
    else Run(m, Step(m, st, events[0]).st, events[1..])
  }
}

=== FILE: unsigned.dfy ===
/**
 Unsigned 32-bit arithmetic as C performs it on `unsigned` values: every
 result is reduced modulo 2^32, so `(unsigned) -1` is the largest value and
 incrementing the largest value wraps around to zero. Copying an unsigned
 value into a 32-bit `int` reads values above INT_MAX as negative.
 */
module Unsigned {

  const UINT_MAX: int := 0xFFFF_FFFF
  const MODULUS: int := 0x1_0000_0000
  const INT_MAX: int := 0x7FFF_FFFF

  /** The values an `unsigned` variable can hold. */
  type U32 = x: int | 0 <= x <= 0xFFFF_FFFF

  /** C's conversion of a (signed) integer to `unsigned`. */
  function ToUnsigned(x: int): (r: U32)
    ensures 0 <= x <= UINT_MAX ==> r == x
    ensures -MODULUS <= x < 0 ==> r == x + MODULUS
    ensures (x - r) % MODULUS == 0
  {
    x % MODULUS
  }

  /**
   C's conversion of an `unsigned` value to a 32-bit `int` (two's
   complement): values above INT_MAX come out 2^32 lower.
   */
  function ToInt32(x: U32): (r: int)
    ensures -INT_MAX - 1 <= r <= INT_MAX
    ensures x <= INT_MAX ==> r == x
    ensures x > INT_MAX ==> r == x - MODULUS
  {
    if x > INT_MAX then x - MODULUS else x
  }

  /** Converting back to `unsigned` recovers the field: no bits are lost. */
  lemma ToInt32RoundTrip(x: U32)
    ensures ToUnsigned(ToInt32(x)) == x
  {
  }

  /** The largest unsigned value, copied into an `int`, reads as -1. */
  lemma MaxReadsAsMinusOne()
    ensures ToInt32(UINT_MAX) == -1
  {
  }

  /** `x++` on an unsigned value. */
  function Inc(x: U32): (r: U32)
    ensures x < UINT_MAX ==> r == x + 1
    ensures x == UINT_MAX ==> r == 0
  {
    ToUnsigned(x + 1)
  }

  /** `x--` on an unsigned value. */
  function Dec(x: U32): (r: U32)
    ensures x > 0 ==> r == x - 1
    ensures x == 0 ==> r == UINT_MAX
  {
    ToUnsigned(x - 1)
  }

  /** Increment and decrement undo each other, wrap-around included. */
  lemma IncDecInverse(x: U32)
    ensures Dec(Inc(x)) == x
    ensures Inc(Dec(x)) == x
  {
  }

  /** The representation of `-1` stored in an unsigned variable. */
  lemma MinusOneIsMax()
    ensures ToUnsigned(-1) == UINT_MAX
  {
  }
}
